=== FILE: README.md ===
# Caching forward proxy: a Dafny model of its decision core

The proxy answers `GET /<protocol>/<host>/<rest...>?<query>` by fetching
`<protocol>://<host>/<rest>?<query>` from the origin. It can serve a copy
from the edge cache instead, and it rewrites the caching headers of what it
returns. This project models the decision core in `src/index.ts`:

- the two route handlers, which validate the protocol and build the target URL;
- `proxyWithCache`, which works out the cache policy and looks the request up
  in the cache. On a hit it answers from the stored copy. On a miss it forwards
  an allow-listed set of headers to the origin, rewrites Cache-Control and
  Set-Cookie, marks the response `X-Cache: HIT` or `MISS`, and stores eligible
  responses.

Everything is a pure function over immutable records:

- `Http`: the records. Header sets are `map<string, string>` keyed by
  lower-case name, because the runtime's header objects are case-insensitive.
- `Text`: `indexOf`, `split` and `join` on one character, with JavaScript
  semantics, and decimal rendering of a TTL. Each comes with its round trip.
- `Resolver`: the route handlers.
- `Policy`: the TTL clamp, and the bypass, respect, read-eligibility and
  write-eligibility rules.
- `HeaderPolicy`: the forwarding allow-list and the Cache-Control rewrite. A
  parser reads the imposed value back.
- `Proxy`: `proxyWithCache` as `Handle`, and the full handler as `Serve`.
  - The cache is a `map<CacheKey, Response>`.
  - The origin is a function argument. So is whether a store would succeed.
  - Every lookup, fetch and store is recorded in a trace. That lets the model
    say that something did *not* happen.
- `Flow`: the same per-request flow as an explicit state machine. It is
  proved to stop and to agree with `Serve`.
- `Correction`: the finding below.

The store condition (`src/index.ts:62`) includes `!bypass`, so a bypassed response
is never stored. `Proxy.BypassForcesFetch` states this.

## Model

| member | source | states |
|---|---|---|
| Text.IndexOf | src/index.ts:88 | `None` exactly when the URL has no '?'. Otherwise the position holds '?' and no earlier position does. |
| Text.Split | src/index.ts:86 | The path splits into one more piece than it has '/' characters, and no piece contains '/'. |
| Text.Join | src/index.ts:86 | The empty array joins to "". Joining one or more separator-free pieces puts exactly one separator between neighbours, so the result holds one separator fewer than there are pieces. |
| Text.JoinDropIsSuffix | src/index.ts:86 | Joining the pieces of a split from the k-th piece on gives a suffix of the split string. |
| Text.JoinSplit | src/index.ts:86 | Rejoining the pieces of a split with the same separator gives back the original string. |
| Text.SplitJoin | src/index.ts:86 | Splitting a join of one or more separator-free pieces gives back those pieces. |
| Text.DecimalOf | src/index.ts:49 | A TTL renders as a non-empty run of decimal digits with no leading zero. |
| Text.DecimalRoundTrip | src/index.ts:49 | Reading a rendered TTL back as a decimal number gives the TTL. |
| Resolver.QueryOf | src/index.ts:88-89 | The query is empty exactly when the URL has no '?'. Otherwise it is the suffix that starts at the first '?', and the part before it has no '?'. |
| Resolver.Resolve | src/index.ts:77-104 | Rejects with the 400 text response exactly when the protocol is not `http` or `https`. Otherwise it hands on the target the matched route builds. |
| Resolver.RestOf | src/index.ts:85-86 | The rest is a suffix of the path name, and it is empty when the path has fewer than three '/'. |
| Resolver.TargetUrl | src/index.ts:88-90 | Reading the query back from `protocol://host[/rest]` plus a query gives that query. This holds when protocol, host and rest contain no '?' and the query is empty or starts with '?'. |
| Resolver.TargetOf | src/index.ts:88-102 | Each route's target carries the inbound query unchanged when the protocol, the host and, for the wildcard route, the rest contain no '?'. |
| Resolver.TargetFramed | src/index.ts:88-102 | Every target either route builds starts with `protocol://host` and ends with the inbound query. |
| Resolver.RestOfPath | src/index.ts:85-86 | On a path `/p/h/r`, where p and h contain no '/', the rest is exactly r, including inner and trailing slashes. |
| Resolver.RestOfHostOnlyPath | src/index.ts:85-86 | On a path `/p/h` the rest is empty. |
| Resolver.TargetOfPath | src/index.ts:85-90 | On a path `/p/h/r` the wildcard route's target is `p://h`, then `/r` only when r is non-empty, then the inbound query. |
| Resolver.TargetOfHostOnlyPath | src/index.ts:85-102 | On a path `/p/h` both routes' target is `p://h` followed by the inbound query, with no trailing slash. |
| Resolver.RoutesAgree | src/index.ts:77-104 | On `/p/h`, the wildcard route and the host-only route build the same target. |
| Resolver.ResolveKeepsQuery | src/index.ts:77-104 | With a supported protocol, both routes hand on a target. Its query is the inbound query when the host and the path contain no '?'. |
| Policy.Ttl | src/index.ts:15-16 | The TTL is always in [0, 86400]. It is 300 for an absent, non-finite or negative number, the number itself up to 86400, and 86400 above that. |
| Policy.Evaluate | src/index.ts:9-16 | Bypass holds exactly when the query has `no-cache=1` or the `cf-cache-bypass` header is 1. Respect holds exactly on `respect=1`. The credential flag is a non-empty Authorization header, the TTL is the clamped `ttl` parameter, and the method is kept. |
| Policy.ReadEligible | src/index.ts:18 | A lookup is only made for GET or HEAD, and never with a bypass or a credential. |
| Policy.WriteEligible | src/index.ts:62 | A store is allowed exactly when a lookup would be and the origin answered 2xx. |
| Policy.EligibilityRules | src/index.ts:18 | A lookup needs no bypass, no credential, and GET or HEAD. A store needs all of that and a 2xx status. A credential, a bypass or another method rules out both, whatever the status. |
| Policy.RequestEligibility | src/index.ts:10-18 | In terms of the request: a lookup is made exactly when there is no `no-cache=1`, no bypass header set to 1 and no non-empty Authorization, and the method is GET or HEAD. |
| HeaderPolicy.ForwardHeaders | src/index.ts:31-39 | Forwarded names are a subset of {accept, accept-language, user-agent, authorization}. Each is copied with its inbound value exactly when that value is non-empty. Authorization is copied only when the credential flag is set. |
| HeaderPolicy.OverrideRoundTrip | src/index.ts:49 | The parser reads the imposed Cache-Control value back to the TTL: max-age and s-maxage both carry it. |
| HeaderPolicy.OverrideInjective | src/index.ts:49 | Different TTLs give different imposed values. |
| HeaderPolicy.OverrideOfSixty | src/index.ts:49 | A TTL of 60 is imposed as `public, max-age=60, s-maxage=60`. |
| HeaderPolicy.ApplyCacheControl | src/index.ts:47-53 | Without respect, Cache-Control is the imposed value and Set-Cookie is absent. With respect, an origin Cache-Control leaves every header unchanged; a missing one is filled with the imposed value; Set-Cookie is kept. No other header changes. |
| Proxy.SharedKey | src/index.ts:12 | Two requests share a cache key exactly when they share the inbound URL, whatever their methods. The key's method is GET. |
| Proxy.KeyOf | src/index.ts:12 | The cache key is the inbound URL, under GET whatever the inbound method. |
| Proxy.UpstreamRequestOf | src/index.ts:31-45 | The outbound request goes to the target URL. Its method is HEAD exactly when the inbound method is HEAD, and GET otherwise. Accept, Accept-Language and User-Agent go out exactly when they are non-empty inbound, and Authorization exactly when there is a credential. Every forwarded value is the inbound one, and no other header is sent. |
| Proxy.HitResponse | src/index.ts:21-27 | A hit answers with the entry's status, status text and headers, with only X-Cache changed, to HIT. The body is the entry's, or null for a HEAD. |
| Proxy.MissResponse | src/index.ts:47-60 | A miss keeps the origin's status, status text and every header except Cache-Control, Set-Cookie and X-Cache. X-Cache is MISS. Without respect, Cache-Control is the imposed value for the policy TTL and Set-Cookie is dropped. With respect, the origin's Cache-Control and Set-Cookie stand, and the imposed value fills only a missing Cache-Control. The body is the origin's, or null for a HEAD. |
| Proxy.Handle | src/index.ts:18-60 | X-Cache is HIT exactly on a read-eligible request whose key is cached, and MISS otherwise. A HEAD gets a null body. A hit keeps the stored status, status text and headers, with only X-Cache replaced. A miss passes through the origin's status and status text, changes no header except Cache-Control, Set-Cookie and X-Cache, and keeps the origin's body for a non-HEAD request. On a miss without `respect=1`, Cache-Control is `public, max-age=T, s-maxage=T` for the clamped `ttl` parameter T and Set-Cookie is gone. With `respect=1` the origin's Cache-Control and Set-Cookie stand with their values, and that value fills only a missing Cache-Control. |
| Proxy.HandleEffects | src/index.ts:18-72 | A lookup happens exactly when the request is read-eligible, and comes first. There is exactly one origin fetch on a miss and none on a hit. A store happens exactly when a miss is write-eligible; it comes last, stores the returned response under the request's key, and is the only way the cache changes. |
| Proxy.CredentialBypassesCache | src/index.ts:10-18 | With a credential there is no lookup and no store, the cache is unchanged, the answer is MISS, and the response does not depend on what the cache holds. |
| Proxy.BypassForcesFetch | src/index.ts:13-18 | With a bypass flag there is one fetch, a MISS, no lookup and no store, even when an entry exists. |
| Proxy.StoreFailureInvisible | src/index.ts:62-74 | A failed store leaves the response and the attempted effects unchanged, and the cache untouched. |
| Proxy.RepeatIsHit | src/index.ts:19-27 | After a stored eligible miss, a second eligible request for the same URL is a HIT with no fetch. It has the first response's status, status text and headers apart from X-Cache, and the first body unless it is a HEAD. |
| Proxy.Serve | src/index.ts:77-104 | The trace is empty (no fetch, no cache access) exactly when the protocol is refused; then the status is 400 and the cache is unchanged. Otherwise there is at most one fetch. |
| Proxy.ServeFetchesTarget | src/index.ts:77-91 | On a miss through the wildcard route for `/p/h/r`, the one origin fetch goes to `p://h`, then `/r` when r is non-empty, then the inbound query. The route's URL is the one `proxyWithCache` fetches. |
| Proxy.MissFetchesTarget | src/index.ts:41-45 | On a miss, the caching core fetches the target URL it was handed, with the outbound request built from the inbound one. |
| Flow.Step | src/index.ts:8-75 | Each transition lowers the rank and appends at most one event. Only the step after assembly can change the cache, by storing the already-built response, and it ends in Done with that same response. |
| Flow.Run | src/index.ts:8-75 | The machine stops in Refused or Done. The trace only grows, by at most one event per rank. |
| Flow.RunFromMissed | src/index.ts:41-72 | From Missed the machine makes one fetch, builds the response from the origin's answer, stores it under the request's key when the miss is write-eligible, and ends in Done with that response. |
| Flow.RunFetches | src/index.ts:41-60 | Running from Missed ends where running from Assembled does, with one fetch event added. That Assembled state holds the response and write-eligibility built from the origin's answer to the outbound request. |
| Flow.RunStores | src/index.ts:62-74 | From Assembled the machine ends in Done with the same response. A Store event is added, and the cache updated if the store succeeds, exactly when the response is write-eligible. |
| Flow.RunFromResolved | src/index.ts:18-74 | From Resolved the machine ends with `Handle`'s response, cache and trace. |
| Flow.RunMatchesServe | src/index.ts:77-104 | From Received the machine ends with `Serve`'s response, cache and trace. |
| Correction.HeadThenGetHasNoBody | src/index.ts:62-67 | As written, a stored HEAD miss makes a later GET for the same URL a HIT with a null body. |
| Correction.HandleCorrected | src/index.ts:62 | The corrected flow returns the same response as `Handle`. It is identical to `Handle` for every non-HEAD request, and never changes the cache on a HEAD. |
| Correction.CorrectedKeepsGetBodies | src/index.ts:62 | In the corrected flow the cache only holds bodies the origin sent for a GET, and every GET response carries such a body. |
| Correction.HeadThenGetDemo | src/index.ts:62-67 | On HEAD then GET from an empty cache, the as-written GET is a body-less HIT and the cache holds a body no GET fetch returns. The corrected GET gets the origin's body. |

## Left out

- Framework wiring: the Hono app, the `cors()` middleware, route registration and the export (`src/index.ts:1-6,106`). Routes are functions of the matched protocol and host parameters, the path and the URL. Which route matches is an input.
- Methods at the routes: the framework answers HEAD through a GET route and sends no other method to these handlers. The model accepts any method, as `proxyWithCache` itself does.
- Runtime objects: `fetch`, `caches.default`, and the `Request`, `Response` and `Headers` objects are foreign runtime APIs.
  - The origin is a total function argument, with redirect following folded into it.
  - A network failure that makes `fetch` reject is not modelled.
  - The cache is a map.
  - A header holds one value, so several Set-Cookie lines are one entry.
- Deferred stores: the choice between `waitUntil` and awaiting the store, and the `try`/`catch` with `console.error` (`src/index.ts:63-71`), are background work and logging. A store outcome is reduced to a success flag, and the model shows a failure cannot change the response. The model also treats a store as finished before the next request arrives. With `waitUntil` (`src/index.ts:65`) the store may still be pending, so a following request can miss where `Proxy.RepeatIsHit` says it hits.
- `Number()` parsing: the `ttl` parameter arrives as its numeric value, integer or `None` for NaN and infinities. An absent parameter is NaN, so `None`. An empty one is 0. Fractional TTLs and JavaScript's string-to-number rules are floating-point semantics.
- URL parsing: the query parameters and the path name are inputs next to the URL. Their derivation from the URL, percent-decoding included, belongs to the framework.
- Platform behaviour: body streams and cloning (a body is an opaque optional string), and entry expiry inside the cache.

## Findings

| source | as written | input that shows it | evidently intended | confidence | as-written member | corrected member |
|---|---|---|---|---|---|---|
| src/index.ts:62-67 | A HEAD miss with a 2xx status is stored under the key it shares with GET. The stored copy has a null body, because HEAD fetches upstream with HEAD and the response body is suppressed. | `HEAD /https/example.com/` then `GET /https/example.com/` from an empty cache, against an origin that sends a body for GET: the GET is a HIT with no body. | Let a HEAD read a GET's entry, but store only GET responses. A cached GET then always carries the origin's GET body. | medium, not executed: depends on the platform cache storing a null-bodied response as empty | Correction.HeadThenGetHasNoBody | Correction.CorrectedKeepsGetBodies |

=== FILE: correction.dfy ===
/** A HEAD request shares its cache key with GET, is fetched upstream with
    HEAD, and is stored when it misses with a 2xx; the stored copy has a null
    body. A later GET for the same URL is then a HIT with no body, although
    the origin sends one for GET. This module exhibits that as written, and
    defines the evidently intended flow, in which only a GET is stored, with
    the property that every body in the cache, and every GET answer, is a
    body the origin sent for a GET. */
module Correction {
  import opened Optional
  import opened Http
  import opened Policy
  import opened Proxy

  /** As written: after a HEAD miss is stored, a GET for the same URL is a
      HIT that carries no body, whatever the origin would send for a GET. */
  lemma HeadThenGetHasNoBody(env: Env, head: Inbound, get: Inbound, t1: string, t2: string, cache: Cache)
    requires head.verb == "HEAD" && get.verb == "GET" && head.url == get.url
    requires ReadEligible(Evaluate(head)) && ReadEligible(Evaluate(get))
    requires KeyOf(head) !in cache
    requires IsOk(OriginAnswer(env, head, t1).status)
    requires env.storeSucceeds
    ensures var o2 := Handle(env, get, t2, Handle(env, head, t1, cache).cache);
      o2.response.headers[XCache] == "HIT" && o2.response.body == None
  {
    RepeatIsHit(env, head, get, t1, t2, cache);
  }

  /** The store rule as intended: a write-eligible GET only. */
  predicate WriteEligibleCorrected(p: CachePolicy, status: int) {
    WriteEligible(p, status) && p.verb == "GET"
  }

  /** `Proxy.Handle` with the intended store rule. The caller sees the same
      response as before; only a HEAD's store disappears. */
  function HandleCorrected(env: Env, req: Inbound, target: string, cache: Cache): (o: Outcome)
    ensures o.response == Handle(env, req, target, cache).response
    ensures req.verb != "HEAD" ==> o == Handle(env, req, target, cache)
    ensures req.verb == "HEAD" ==> o.cache == cache
  {
    var p := Evaluate(req);
    var key := KeyOf(req);
    if ReadEligible(p) && key in cache then
      Outcome(HitResponse(cache[key], req.verb), cache, [Lookup(key)])
    else
      var looked := if ReadEligible(p) then [Lookup(key)] else [];
      var up := UpstreamRequestOf(req, target);
      var res := MissResponse(env.upstream(up), p);
      var stored := WriteEligibleCorrected(p, res.status);
      Outcome(
        res,
        if stored && env.storeSucceeds then cache[key := res] else cache,
        looked + [Fetch(up)] + (if stored then [Store(key, res)] else []))
  }

  /** The body is one the origin sent in answer to a GET. */
  ghost predicate FromGetFetch(body: Option<string>, upstream: UpstreamRequest -> Response) {
    exists u: UpstreamRequest :: u.verb == "GET" && upstream(u).body == body
  }

  ghost predicate CacheHoldsGetBodies(cache: Cache, upstream: UpstreamRequest -> Response) {
    forall k :: k in cache ==> FromGetFetch(cache[k].body, upstream)
  }

  /** Corrected: the cache only ever holds bodies the origin sent for a GET,
      so a GET, hit or miss, always answers with such a body. */
  lemma CorrectedKeepsGetBodies(env: Env, req: Inbound, target: string, cache: Cache)
    requires CacheHoldsGetBodies(cache, env.upstream)
    ensures CacheHoldsGetBodies(HandleCorrected(env, req, target, cache).cache, env.upstream)
    ensures req.verb == "GET" ==> FromGetFetch(HandleCorrected(env, req, target, cache).response.body, env.upstream)
  {
    var o := HandleCorrected(env, req, target, cache);
    var key := KeyOf(req);
    if req.verb == "GET" {
      if IsHit(req, cache) {
        assert o.response.body == cache[key].body;
      } else {
        var up := UpstreamRequestOf(req, target);
        assert up.verb == "GET";
        assert o.response.body == env.upstream(up).body;
        assert FromGetFetch(o.response.body, env.upstream);
      }
      forall k | k in o.cache
        ensures FromGetFetch(o.cache[k].body, env.upstream)
      {
        if k !in cache || o.cache[k] != cache[k] {
          assert k == key && o.cache[k] == o.response;
        }
      }
    }
  }

  /** A concrete origin: 200 with a body for GET, without one for HEAD. */
  function DemoOrigin(u: UpstreamRequest): Response
  {
    Response(200, "OK", map[], if u.verb == "HEAD" then None else Some("payload"))
  }

  function DemoRequest(verb: string): Inbound
  {
    Inbound(verb, "https://proxy.example/https/example.com/", "/https/example.com/", map[], map[], None)
  }

  const DemoTarget := "https://example.com"

  /** The discrepancy on concrete input: HEAD then GET of the same URL from an
      empty cache. As written, the GET is a HIT without a body, and the cache
      holds a body the origin never sends for GET; corrected, the GET gets the
      origin's body. */
  lemma HeadThenGetDemo()
    ensures var env := Env(DemoOrigin, true);
      var o1 := Handle(env, DemoRequest("HEAD"), DemoTarget, map[]);
      var o2 := Handle(env, DemoRequest("GET"), DemoTarget, o1.cache);
      && o2.response.headers[XCache] == "HIT"
      && o2.response.body == None
      && !CacheHoldsGetBodies(o1.cache, DemoOrigin)
    ensures var env := Env(DemoOrigin, true);
      var c1 := HandleCorrected(env, DemoRequest("HEAD"), DemoTarget, map[]);
      var c2 := HandleCorrected(env, DemoRequest("GET"), DemoTarget, c1.cache);
      c2.response.body == Some("payload")
  {
    var env := Env(DemoOrigin, true);
    var head := DemoRequest("HEAD");
    var get := DemoRequest("GET");
    assert ReadEligible(Evaluate(head)) && ReadEligible(Evaluate(get));
    HeadThenGetHasNoBody(env, head, get, DemoTarget, DemoTarget, map[]);
    var o1 := Handle(env, head, DemoTarget, map[]);
    HandleEffects(env, head, DemoTarget, map[]);
    assert o1.cache[KeyOf(head)].body == None;
    assert !FromGetFetch(None, DemoOrigin);
    var c1 := HandleCorrected(env, head, DemoTarget, map[]);
    assert c1.cache == map[];
  }
}

=== FILE: flow.dfy ===
/** The per-request flow as an explicit state machine:

      Received -> Refused                                   (bad protocol)
      Received -> Resolved -> HitFound -> Done              (cache hit)
      Received -> Resolved -> Missed -> Fetched -> Assembled -> Done

    Every step strictly lowers a rank, so no phase is visited twice and the
    machine stops; the store, when there is one, is the step out of
    Assembled, after the response exists, and it cannot change that
    response. Running the machine gives exactly what `Proxy.Serve` gives. */
module Flow {
  import opened Http
  import opened Policy
  import opened Resolver
  import opened Proxy

  datatype Phase =
    | Received
    | Refused(response: Response)
    | Resolved(target: string)
    | HitFound(entry: Response)
    | Missed(target: string)
    | Fetched(origin: Response)
    | Assembled(response: Response, writable: bool)
    | Done(response: Response)

  datatype Config = Config(phase: Phase, cache: Cache, trace: seq<Event>)

  predicate IsTerminal(ph: Phase) {
    ph.Refused? || ph.Done?
  }

  function Rank(ph: Phase): nat
  {
    match ph
    case Received => 6
    case Resolved(_) => 5
    case Missed(_) => 4
    case Fetched(_) => 3
    case Assembled(_, _) => 2
    case HitFound(_) => 1
    case Refused(_) => 0
    case Done(_) => 0
  }

  /** One transition. Each one lowers the rank, appends at most one event,
      and only the step out of Assembled may touch the cache, by storing the
      already-built response under the request's key. */
  function Step(env: Env, route: Route, req: Inbound, c: Config): (d: Config)
    requires !IsTerminal(c.phase)
    ensures Rank(d.phase) < Rank(c.phase)
    ensures c.trace <= d.trace && |d.trace| <= |c.trace| + 1
    ensures d.cache == c.cache || (c.phase.Assembled? && d.cache == c.cache[KeyOf(req) := c.phase.response])
    ensures c.phase.Assembled? ==> d.phase == Done(c.phase.response)
  {
    match c.phase
    case Received => ResolveStep(route, req, c)
    case Resolved(t) => LookupStep(req, t, c)
    case HitFound(e) => HitStep(req, e, c)
    case Missed(t) => FetchStep(env, req, t, c)
    case Fetched(origin) => AssembleStep(req, origin, c)
    case Assembled(res, writable) => StoreStep(env, req, res, writable, c)
  }

  /** From Received: refuse, or go on with the target. */
  function ResolveStep(route: Route, req: Inbound, c: Config): (d: Config)
    ensures d.phase.Refused? || d.phase.Resolved?
    ensures d.cache == c.cache && d.trace == c.trace
  {
    match Resolve(route, req.path, req.url)
    case Rejected(r) => c.(phase := Refused(r))
    case Target(t) => c.(phase := Resolved(t))
  }

  /** From Resolved: the cache lookup, made for a read-eligible request only. */
  function LookupStep(req: Inbound, t: string, c: Config): (d: Config)
    ensures d.phase.HitFound? || d.phase.Missed?
    ensures d.cache == c.cache && c.trace <= d.trace && |d.trace| <= |c.trace| + 1
  {
    var key := KeyOf(req);
    if !ReadEligible(Evaluate(req)) then c.(phase := Missed(t))
    else if key in c.cache then Config(HitFound(c.cache[key]), c.cache, c.trace + [Lookup(key)])
    else Config(Missed(t), c.cache, c.trace + [Lookup(key)])
  }

  /** From HitFound: the stored entry becomes the response. */
  function HitStep(req: Inbound, entry: Response, c: Config): (d: Config)
    ensures d.phase.Done? && d.cache == c.cache && d.trace == c.trace
  {
    c.(phase := Done(HitResponse(entry, req.verb)))
  }

  /** From Missed: the one origin request. */
  function FetchStep(env: Env, req: Inbound, t: string, c: Config): (d: Config)
    ensures d.phase.Fetched?
    ensures d.cache == c.cache && c.trace <= d.trace && |d.trace| == |c.trace| + 1
  {
    var up := UpstreamRequestOf(req, t);
    Config(Fetched(env.upstream(up)), c.cache, c.trace + [Fetch(up)])
  }

  /** From Fetched: the response is built, noting whether it may be stored. */
  function AssembleStep(req: Inbound, origin: Response, c: Config): (d: Config)
    ensures d.phase.Assembled?
    ensures d.cache == c.cache && d.trace == c.trace
  {
    var p := Evaluate(req);
    c.(phase := Assembled(MissResponse(origin, p), WriteEligible(p, origin.status)))
  }

  /** From Assembled: the store, when allowed, then Done with the response unchanged. */
  function StoreStep(env: Env, req: Inbound, res: Response, writable: bool, c: Config): (d: Config)
    ensures d.phase == Done(res)
    ensures d.cache == c.cache || d.cache == c.cache[KeyOf(req) := res]
    ensures c.trace <= d.trace && |d.trace| <= |c.trace| + 1
  {
    if !writable then c.(phase := Done(res))
    else
      var key := KeyOf(req);
      Config(Done(res), if env.storeSucceeds then c.cache[key := res] else c.cache, c.trace + [Store(key, res)])
  }

  /** Runs the machine to a terminal phase. The trace only grows, by at most
      one event per rank. */
  function Run(env: Env, route: Route, req: Inbound, c: Config): (d: Config)
    ensures IsTerminal(d.phase)
    ensures c.trace <= d.trace && |d.trace| <= |c.trace| + Rank(c.phase)
    decreases Rank(c.phase)
  {
    if IsTerminal(c.phase) then c else Run(env, route, req, Step(env, route, req, c))
  }

  function ResponseOf(ph: Phase): Response
    requires IsTerminal(ph)
  {
    ph.response
  }

  /** From Missed, the machine fetches, assembles and stores if allowed. */
  lemma RunFromMissed(env: Env, route: Route, req: Inbound, t: string, cache: Cache, looked: seq<Event>)
    ensures var p := Evaluate(req);
      var key := KeyOf(req);
      var up := UpstreamRequestOf(req, t);
      var res := MissResponse(env.upstream(up), p);
      var w := WriteEligible(p, env.upstream(up).status);
      Run(env, route, req, Config(Missed(t), cache, looked)) == Config(
        Done(res),
        if w && env.storeSucceeds then cache[key := res] else cache,
        looked + [Fetch(up)] + (if w then [Store(key, res)] else []))
  {
    var up := UpstreamRequestOf(req, t);
    var origin := env.upstream(up);
    var p := Evaluate(req);
    RunFetches(env, route, req, t, cache, looked);
    RunStores(env, route, req, MissResponse(origin, p), WriteEligible(p, origin.status), cache, looked + [Fetch(up)]);
  }

  /** From Missed to Assembled: one fetch, and the response built from it. */
  lemma RunFetches(env: Env, route: Route, req: Inbound, t: string, cache: Cache, looked: seq<Event>)
    ensures var p := Evaluate(req);
      var up := UpstreamRequestOf(req, t);
      var origin := env.upstream(up);
      Run(env, route, req, Config(Missed(t), cache, looked))
        == Run(env, route, req, Config(Assembled(MissResponse(origin, p), WriteEligible(p, origin.status)), cache, looked + [Fetch(up)]))
  {
    var c3 := Config(Missed(t), cache, looked);
    var c4 := FetchStep(env, req, t, c3);
    RunUnfolds(env, route, req, c3);
    RunUnfolds(env, route, req, c4);
  }

  /** From Assembled to Done: the response is kept, and stored when allowed. */
  lemma RunStores(env: Env, route: Route, req: Inbound, res: Response, w: bool, cache: Cache, trace: seq<Event>)
    ensures Run(env, route, req, Config(Assembled(res, w), cache, trace)) == Config(
      Done(res),
      if w && env.storeSucceeds then cache[KeyOf(req) := res] else cache,
      trace + (if w then [Store(KeyOf(req), res)] else []))
  {
    var c5 := Config(Assembled(res, w), cache, trace);
    RunUnfolds(env, route, req, c5);
    RunUnfolds(env, route, req, StoreStep(env, req, res, w, c5));
  }

  /** One unfolding of the machine. */
  lemma RunUnfolds(env: Env, route: Route, req: Inbound, c: Config)
    ensures Run(env, route, req, c) == if IsTerminal(c.phase) then c else Run(env, route, req, Step(env, route, req, c))
  {
  }

  /** What `Proxy.Handle` returns on a miss, spelled out step by step. */
  lemma HandleOnMiss(env: Env, req: Inbound, t: string, cache: Cache)
    requires !IsHit(req, cache)
    ensures var p := Evaluate(req);
      var key := KeyOf(req);
      var up := UpstreamRequestOf(req, t);
      var res := MissResponse(env.upstream(up), p);
      var w := WriteEligible(p, env.upstream(up).status);
      Handle(env, req, t, cache) == Outcome(
        res,
        if w && env.storeSucceeds then cache[key := res] else cache,
        (if ReadEligible(p) then [Lookup(key)] else []) + [Fetch(up)] + (if w then [Store(key, res)] else []))
  {
  }

  /** From Resolved, the machine ends where `Proxy.Handle` does. */
  lemma RunFromResolved(env: Env, route: Route, req: Inbound, t: string, cache: Cache)
    ensures var d := Run(env, route, req, Config(Resolved(t), cache, []));
      var o := Handle(env, req, t, cache);
      d.phase == Done(o.response) && d.cache == o.cache && d.trace == o.trace
  {
    var c2 := Config(Resolved(t), cache, []);
    var c3 := Step(env, route, req, c2);
    assert Run(env, route, req, c2) == Run(env, route, req, c3);
    if IsHit(req, cache) {
      var c4 := Step(env, route, req, c3);
      assert Run(env, route, req, c3) == c4;
    } else {
      var looked := if ReadEligible(Evaluate(req)) then [Lookup(KeyOf(req))] else [];
      assert c3 == Config(Missed(t), cache, looked);
      RunFromMissed(env, route, req, t, cache, looked);
      HandleOnMiss(env, req, t, cache);
    }
  }

  /** The state machine and the direct definition agree on the response, the
      final cache and the effects. */
  lemma RunMatchesServe(env: Env, route: Route, req: Inbound, cache: Cache)
    ensures var d := Run(env, route, req, Config(Received, cache, []));
      var o := Serve(env, route, req, cache);
      ResponseOf(d.phase) == o.response && d.cache == o.cache && d.trace == o.trace
  {
    var c0 := Config(Received, cache, []);
    var c1 := Step(env, route, req, c0);
    assert Run(env, route, req, c0) == Run(env, route, req, c1);
    match Resolve(route, req.path, req.url)
    case Rejected(r) =>
      assert Run(env, route, req, c1) == c1;
    case Target(t) =>
      RunFromResolved(env, route, req, t, cache);
  }
}

=== FILE: headers.dfy ===
/** Header handling: which inbound headers are forwarded upstream, and how
    the origin's caching headers are rewritten on the way back. */
module HeaderPolicy {
  import opened Optional
  import opened Text
  import opened Http

  const ForwardedNames := {Accept, AcceptLanguage, UserAgent, Authorization}

  /** Copies one inbound header when its value is non-empty. */
  function CopyHeader(into: Headers, from: Headers, name: string): Headers
  {
    if HasValue(from, name) then into[name := from[name]] else into
  }

  /** The forwarded header set: accept, accept-language and user-agent when
      present and non-empty, and authorization only when the request carries
      a credential. Every other inbound header is dropped. */
  function ForwardHeaders(inbound: Headers, hasAuth: bool): (f: Headers)
    ensures f.Keys <= ForwardedNames
    ensures forall k :: k in f ==> k in inbound && f[k] == inbound[k] && f[k] != ""
    ensures forall k :: k in ForwardedNames && k != Authorization ==> (k in f <==> HasValue(inbound, k))
    ensures Authorization in f <==> hasAuth && HasValue(inbound, Authorization)
  {
    var f := CopyHeader(CopyHeader(CopyHeader(map[], inbound, Accept), inbound, AcceptLanguage), inbound, UserAgent);
    if hasAuth then CopyHeader(f, inbound, Authorization) else f
  }

  const MaxAgePrefix := "public, max-age="
  const SharedMaxAgeInfix := ", s-maxage="

  /** The Cache-Control value the proxy imposes: `public, max-age=<ttl>,
      s-maxage=<ttl>`. */
  function OverrideValue(ttl: nat): string
  {
    MaxAgePrefix + DecimalOf(ttl) + SharedMaxAgeInfix + DecimalOf(ttl)
  }

  /** Recognises an imposed Cache-Control value and reads its TTL back; any
      other value, or one whose two ages differ, is `None`. */
  function ParseOverride(cc: string): Option<nat>
  {
    if |cc| < |MaxAgePrefix| || cc[..|MaxAgePrefix|] != MaxAgePrefix then None
    else
      var (d1, r1) := SpanDigits(cc[|MaxAgePrefix|..]);
      if |r1| < |SharedMaxAgeInfix| || r1[..|SharedMaxAgeInfix|] != SharedMaxAgeInfix then None
      else
        var (d2, r2) := SpanDigits(r1[|SharedMaxAgeInfix|..]);
        if r2 != "" || d1 != d2 then None else ParseDecimal(d1)
  }

  /** The imposed value states the TTL, once as max-age and once as s-maxage,
      and nothing else: reading it back gives the TTL. */
  lemma OverrideRoundTrip(ttl: nat)
    ensures ParseOverride(OverrideValue(ttl)) == Some(ttl)
  {
    var d := DecimalOf(ttl);
    var cc := OverrideValue(ttl);
    assert cc == MaxAgePrefix + (d + (SharedMaxAgeInfix + d));
    assert cc[..|MaxAgePrefix|] == MaxAgePrefix;
    assert cc[|MaxAgePrefix|..] == d + (SharedMaxAgeInfix + d);
    SpanDigitsOf(d, SharedMaxAgeInfix + d);
    var r1 := SharedMaxAgeInfix + d;
    assert r1[..|SharedMaxAgeInfix|] == SharedMaxAgeInfix;
    assert r1[|SharedMaxAgeInfix|..] == d;
    SpanDigitsOf(d, "");
    assert d + "" == d;
    DecimalRoundTrip(ttl);
  }

  /** Different TTLs give different imposed values. */
  lemma OverrideInjective(a: nat, b: nat)
    requires OverrideValue(a) == OverrideValue(b)
    ensures a == b
  {
    OverrideRoundTrip(a);
    OverrideRoundTrip(b);
  }

  /** For example, a TTL of 60 is imposed as
      `public, max-age=60, s-maxage=60`. */
  lemma OverrideOfSixty()
    ensures OverrideValue(60) == "public, max-age=60, s-maxage=60"
  {
    assert DecimalOf(60) == "60";
  }

  /** The origin headers after the Cache-Control step. Without respect, the
      imposed value replaces any origin value and Set-Cookie is removed. With
      respect, an origin Cache-Control and Set-Cookie stay as they are, and the
      imposed value fills in only a missing Cache-Control. No other header is
      touched. */
  function ApplyCacheControl(origin: Headers, respect: bool, ttl: nat): (h: Headers)
    ensures CacheControl in h
    ensures AgreeOutside(origin, h, {CacheControl, SetCookie})
    ensures !respect ==> h[CacheControl] == OverrideValue(ttl) && SetCookie !in h
    ensures respect && CacheControl in origin ==> h == origin
    ensures respect && CacheControl !in origin ==> h[CacheControl] == OverrideValue(ttl)
    ensures respect ==> (SetCookie in h <==> SetCookie in origin)
    ensures respect && SetCookie in origin ==> h[SetCookie] == origin[SetCookie]
  {
    if !respect then (origin - {SetCookie})[CacheControl := OverrideValue(ttl)]
    else if CacheControl !in origin then origin[CacheControl := OverrideValue(ttl)]
    else origin
  }
}

=== FILE: http.dfy ===
/** The records the proxy works on. Header sets are maps from lower-case
    header name to value: the runtime's header objects are case-insensitive,
    so `Cache-Control` and `cache-control` name the same entry. */
module Http {
  import opened Optional

  type Headers = map<string, string>

  const Accept := "accept"
  const AcceptLanguage := "accept-language"
  const UserAgent := "user-agent"
  const Authorization := "authorization"
  const CacheControl := "cache-control"
  const SetCookie := "set-cookie"
  const XCache := "x-cache"
  const BypassHeader := "cf-cache-bypass"
  const ContentType := "content-type"

  /** A response: status, status text, headers, and a body that is `None`
      for a null body. The body's content is opaque to the proxy. */
  datatype Response = Response(status: int, statusText: string, headers: Headers, body: Option<string>)

  /** `Response.ok`: the status is in the 2xx range. */
  predicate IsOk(status: int) {
    200 <= status <= 299
  }

  /** An inbound request as the route handlers see it (`verb` is the HTTP
      method).
      - `url` is the full inbound URL, query included;
      - `path` is its path name (no query);
      - `headers` are the inbound headers by lower-case name;
      - `query` holds the decoded query parameters by name;
      - `ttlNumber` is what `Number()` makes of the `ttl` parameter when that
        is a finite integer, and `None` when it is NaN or infinite (which
        includes an absent parameter). */
  datatype Inbound = Inbound(
    verb: string,
    url: string,
    path: string,
    headers: Headers,
    query: map<string, string>,
    ttlNumber: Option<int>)

  /** The single outbound request sent to the origin. */
  datatype UpstreamRequest = UpstreamRequest(url: string, verb: string, headers: Headers)

  /** A header (or query parameter) that is present with a non-empty value:
      JavaScript's truthiness of the looked-up value. */
  predicate HasValue(m: map<string, string>, name: string) {
    name in m && m[name] != ""
  }

  /** A header (or query parameter) that is present with exactly `v`. */
  predicate ValueIs(m: map<string, string>, name: string, v: string) {
    name in m && m[name] == v
  }

  /** The request carries a credential: a non-empty `authorization` header. */
  predicate HasAuth(req: Inbound) {
    HasValue(req.headers, Authorization)
  }

  /** The method may take part in caching. */
  predicate IsCacheableMethod(verb: string) {
    verb == "GET" || verb == "HEAD"
  }

  /** Two header sets agree on every name outside `names`. */
  ghost predicate AgreeOutside(a: Headers, b: Headers, names: set<string>) {
    forall k :: k !in names ==> (k in a <==> k in b) && (k in a ==> a[k] == b[k])
  }
}

=== FILE: optional.dfy ===
/** The conventional Some/None datatype, used wherever the proxy sees a value
    that may be absent (a missing header, a query string that is not there,
    a number that did not parse). */
module Optional {

  datatype Option<+T> = None | Some(value: T)
}

=== FILE: policy.dfy ===
/** The cache policy of one request: bypass and respect flags, the clamped
    TTL, and the read and write eligibility rules built from them. */
module Policy {
  import opened Optional
  import opened Http

  const DefaultTtl: nat := 300
  const MaxTtl: nat := 86400

  datatype CachePolicy = CachePolicy(bypass: bool, respect: bool, ttl: nat, hasAuth: bool, verb: string)

  /** The effective TTL: 300 when the number is absent, not finite or
      negative, otherwise the number capped at 86400. */
  function Ttl(n: Option<int>): (t: nat)
    ensures t <= MaxTtl
    ensures n.None? ==> t == DefaultTtl
    ensures n.Some? && n.value < 0 ==> t == DefaultTtl
    ensures n.Some? && 0 <= n.value <= MaxTtl ==> t == n.value
    ensures n.Some? && n.value > MaxTtl ==> t == MaxTtl
  {
    match n
    case Some(v) => if v >= 0 then (if v < MaxTtl then v else MaxTtl) else DefaultTtl
    case None => DefaultTtl
  }

  /** The policy the request asks for: bypass on `no-cache=1` or the bypass
      header set to 1, respect on `respect=1`, the credential flag on a
      non-empty Authorization header, and the clamped TTL. */
  function Evaluate(req: Inbound): (p: CachePolicy)
    ensures p.verb == req.verb && p.hasAuth == HasAuth(req)
    ensures p.bypass <==> ValueIs(req.query, "no-cache", "1") || ValueIs(req.headers, BypassHeader, "1")
    ensures p.respect <==> ValueIs(req.query, "respect", "1")
    ensures p.ttl == Ttl(req.ttlNumber) && p.ttl <= MaxTtl
  {
    CachePolicy(
      bypass := ValueIs(req.query, "no-cache", "1") || ValueIs(req.headers, BypassHeader, "1"),
      respect := ValueIs(req.query, "respect", "1"),
      ttl := Ttl(req.ttlNumber),
      hasAuth := HasAuth(req),
      verb := req.verb)
  }

  /** A cache lookup is made only for an unbypassed, uncredentialed GET or HEAD. */
  predicate ReadEligible(p: CachePolicy)
    ensures ReadEligible(p) ==> p.verb == "GET" || p.verb == "HEAD"
    ensures p.bypass || p.hasAuth ==> !ReadEligible(p)
  {
    !p.bypass && !p.hasAuth && IsCacheableMethod(p.verb)
  }

  /** A store is made only when a lookup would be, and the origin answered 2xx. */
  predicate WriteEligible(p: CachePolicy, status: int)
    ensures WriteEligible(p, status) ==> ReadEligible(p)
    ensures WriteEligible(p, status) ==> 200 <= status <= 299
    ensures ReadEligible(p) && 200 <= status <= 299 ==> WriteEligible(p, status)
  {
    ReadEligible(p) && IsOk(status)
  }

  /** A credential, a bypass or a method other than GET and HEAD rules out
      both reading and writing, whatever the status; and a write needs a 2xx. */
  lemma EligibilityRules(p: CachePolicy, status: int)
    ensures ReadEligible(p) <==> !p.bypass && !p.hasAuth && (p.verb == "GET" || p.verb == "HEAD")
    ensures WriteEligible(p, status) ==> ReadEligible(p) && 200 <= status <= 299
    ensures p.hasAuth || p.bypass || !IsCacheableMethod(p.verb) ==> !ReadEligible(p) && !WriteEligible(p, status)
  {
  }

  /** Read eligibility in the request's own terms: no `no-cache=1`, no bypass
      header set to 1, no credential, and a GET or HEAD. */
  lemma RequestEligibility(req: Inbound)
    ensures ReadEligible(Evaluate(req)) <==>
      && !ValueIs(req.query, "no-cache", "1")
      && !ValueIs(req.headers, BypassHeader, "1")
      && !HasAuth(req)
      && (req.verb == "GET" || req.verb == "HEAD")
  {
  }
}

=== FILE: proxy.dfy ===
/** `proxyWithCache` as a pure function. The platform cache is a map from
    cache key to stored response, the origin is a function from outbound
    request to response, and the effects the handler has on the outside
    world (cache lookups, the origin fetch, cache stores) are recorded as a
    trace of events, so that what did not happen can be stated too. */
module Proxy {
  import opened Optional
  import opened Resolver
  import opened Http
  import opened Policy
  import opened HeaderPolicy

  /** The cache key: the inbound URL (not the upstream one) with the method
      forced to GET. */
  datatype CacheKey = CacheKey(url: string, verb: string)

  type Cache = map<CacheKey, Response>

  datatype Event =
    | Lookup(key: CacheKey)
    | Fetch(request: UpstreamRequest)
    | Store(key: CacheKey, entry: Response)

  /** The world outside the handler: the origin, and whether a store
      attempted now would succeed (a failed store is caught and logged). */
  datatype Env = Env(upstream: UpstreamRequest -> Response, storeSucceeds: bool)

  /** The response returned, the cache afterwards, and the effects in order. */
  datatype Outcome = Outcome(response: Response, cache: Cache, trace: seq<Event>)

  /** The cache key of a request: its inbound URL, under GET whatever the
      inbound method. */
  function KeyOf(req: Inbound): (k: CacheKey)
    ensures k.url == req.url
    ensures k.verb == "GET"
  {
    CacheKey(req.url, "GET")
  }

  /** GET and HEAD share one entry: two requests share a key exactly when
      they share an inbound URL, whatever their methods. */
  lemma SharedKey(a: Inbound, b: Inbound)
    ensures KeyOf(a) == KeyOf(b) <==> a.url == b.url
    ensures KeyOf(a).verb == "GET"
  {
  }

  predicate LooksUp(t: seq<Event>) {
    exists i :: 0 <= i < |t| && t[i].Lookup?
  }

  predicate Stores(t: seq<Event>) {
    exists i :: 0 <= i < |t| && t[i].Store?
  }

  /** How many origin fetches a trace holds. */
  function FetchCount(t: seq<Event>): nat
  {
    if |t| == 0 then 0 else (if t[0].Fetch? then 1 else 0) + FetchCount(t[1..])
  }

  /** The outbound request: the target URL, HEAD for HEAD and GET for every
      other method, and only the allow-listed headers. */
  function UpstreamRequestOf(req: Inbound, target: string): (u: UpstreamRequest)
    ensures u.url == target
    ensures u.verb == "HEAD" || u.verb == "GET"
    ensures u.verb == "HEAD" <==> req.verb == "HEAD"
    ensures u.headers.Keys <= ForwardedNames
    ensures Authorization in u.headers <==> HasAuth(req)
    ensures forall k :: k in u.headers ==> k in req.headers && u.headers[k] == req.headers[k]
    ensures forall k :: k in ForwardedNames && k != Authorization ==> (k in u.headers <==> HasValue(req.headers, k))
  {
    UpstreamRequest(target, if req.verb == "HEAD" then "HEAD" else "GET", ForwardHeaders(req.headers, HasAuth(req)))
  }

  /** The response built from a stored entry: the entry's status, status
      text and headers with X-Cache set to HIT, and its body unless the
      request is a HEAD. */
  function HitResponse(entry: Response, verb: string): (r: Response)
    ensures r.status == entry.status && r.statusText == entry.statusText
    ensures XCache in r.headers && r.headers[XCache] == "HIT"
    ensures AgreeOutside(entry.headers, r.headers, {XCache})
    ensures verb == "HEAD" ==> r.body == None
    ensures verb != "HEAD" ==> r.body == entry.body
  {
    Response(entry.status, entry.statusText, entry.headers[XCache := "HIT"], if verb == "HEAD" then None else entry.body)
  }

  /** The response built from the origin's answer. Without respect the
      Cache-Control is the imposed one and Set-Cookie is dropped; with respect
      the origin's Cache-Control and Set-Cookie stand, and the imposed value
      only fills a missing Cache-Control. X-Cache is MISS, and every other
      header is the origin's. */
  function MissResponse(origin: Response, p: CachePolicy): (r: Response)
    ensures r.status == origin.status && r.statusText == origin.statusText
    ensures XCache in r.headers && r.headers[XCache] == "MISS"
    ensures AgreeOutside(origin.headers, r.headers, {CacheControl, SetCookie, XCache})
    ensures CacheControl in r.headers
    ensures !p.respect ==> r.headers[CacheControl] == OverrideValue(p.ttl) && SetCookie !in r.headers
    ensures p.respect && CacheControl in origin.headers ==> r.headers[CacheControl] == origin.headers[CacheControl]
    ensures p.respect && CacheControl !in origin.headers ==> r.headers[CacheControl] == OverrideValue(p.ttl)
    ensures p.respect ==> (SetCookie in r.headers <==> SetCookie in origin.headers)
    ensures p.respect && SetCookie in origin.headers ==> r.headers[SetCookie] == origin.headers[SetCookie]
    ensures p.verb == "HEAD" ==> r.body == None
    ensures p.verb != "HEAD" ==> r.body == origin.body
  {
    var h := ApplyCacheControl(origin.headers, p.respect, p.ttl);
    Response(origin.status, origin.statusText, h[XCache := "MISS"], if p.verb == "HEAD" then None else origin.body)
  }

  /** The request is answered from the cache. */
  predicate IsHit(req: Inbound, cache: Cache) {
    ReadEligible(Evaluate(req)) && KeyOf(req) in cache
  }

  /** The origin's answer on the miss path. */
  function OriginAnswer(env: Env, req: Inbound, target: string): Response
  {
    env.upstream(UpstreamRequestOf(req, target))
  }

  /** One request through the caching core, given the target URL the route
      handler built. */
  function Handle(env: Env, req: Inbound, target: string, cache: Cache): (o: Outcome)
    ensures XCache in o.response.headers
    ensures o.response.headers[XCache] == (if IsHit(req, cache) then "HIT" else "MISS")
    ensures req.verb == "HEAD" ==> o.response.body == None
    ensures IsHit(req, cache) ==>
      var e := cache[KeyOf(req)];
      && o.response.status == e.status && o.response.statusText == e.statusText
      && o.response.headers == e.headers[XCache := "HIT"]
      && (req.verb != "HEAD" ==> o.response.body == e.body)
    ensures !IsHit(req, cache) ==>
      var a := OriginAnswer(env, req, target);
      && o.response.status == a.status && o.response.statusText == a.statusText
      && AgreeOutside(a.headers, o.response.headers, {CacheControl, SetCookie, XCache})
      && (req.verb != "HEAD" ==> o.response.body == a.body)
    ensures !IsHit(req, cache) ==>
      var a := OriginAnswer(env, req, target);
      var p := Evaluate(req);
      && CacheControl in o.response.headers
      && (!p.respect ==> o.response.headers[CacheControl] == OverrideValue(Ttl(req.ttlNumber)) && SetCookie !in o.response.headers)
      && (p.respect && CacheControl in a.headers ==> o.response.headers[CacheControl] == a.headers[CacheControl])
      && (p.respect && CacheControl !in a.headers ==> o.response.headers[CacheControl] == OverrideValue(Ttl(req.ttlNumber)))
      && (p.respect ==> (SetCookie in o.response.headers <==> SetCookie in a.headers))
      && (p.respect && SetCookie in a.headers ==> o.response.headers[SetCookie] == a.headers[SetCookie])
  {
    var p := Evaluate(req);
    var key := KeyOf(req);
    if ReadEligible(p) && key in cache then
      Outcome(HitResponse(cache[key], req.verb), cache, [Lookup(key)])
    else
      var looked := if ReadEligible(p) then [Lookup(key)] else [];
      var up := UpstreamRequestOf(req, target);
      var res := MissResponse(env.upstream(up), p);
      var stored := WriteEligible(p, res.status);
      Outcome(
        res,
        if stored && env.storeSucceeds then cache[key := res] else cache,
        looked + [Fetch(up)] + (if stored then [Store(key, res)] else []))
  }

  /** The effects of one request: a lookup exactly when the request is
      read-eligible, and first; one origin fetch exactly on a miss, for the
      outbound request; a store exactly when a miss is write-eligible, last,
      of the response returned and under the request's key; and a cache that
      changes only by a successful store. */
  lemma HandleEffects(env: Env, req: Inbound, target: string, cache: Cache)
    ensures var o := Handle(env, req, target, cache);
      && (LooksUp(o.trace) <==> ReadEligible(Evaluate(req)))
      && (LooksUp(o.trace) ==> o.trace[0] == Lookup(KeyOf(req)))
      && FetchCount(o.trace) == (if IsHit(req, cache) then 0 else 1)
      && (forall i :: 0 <= i < |o.trace| && o.trace[i].Fetch? ==> o.trace[i].request == UpstreamRequestOf(req, target))
      && (Stores(o.trace) <==> !IsHit(req, cache) && WriteEligible(Evaluate(req), o.response.status))
      && (Stores(o.trace) ==> o.trace[|o.trace| - 1] == Store(KeyOf(req), o.response))
      && o.cache == (if Stores(o.trace) && env.storeSucceeds then cache[KeyOf(req) := o.response] else cache)
  {
    var o := Handle(env, req, target, cache);
    var p := Evaluate(req);
    var key := KeyOf(req);
    if !IsHit(req, cache) {
      var looked := if ReadEligible(p) then [Lookup(key)] else [];
      var up := UpstreamRequestOf(req, target);
      var stored := WriteEligible(p, o.response.status);
      var tail := if stored then [Store(key, o.response)] else [];
      assert o.trace == looked + [Fetch(up)] + tail;
      FetchCountSplit(looked + [Fetch(up)], tail);
      FetchCountSplit(looked, [Fetch(up)]);
      assert FetchCount(o.trace) == 1;
      if stored {
        assert o.trace[|o.trace| - 1] == Store(key, o.response);
      } else {
        assert forall i :: 0 <= i < |o.trace| ==> !o.trace[i].Store?;
      }
      if ReadEligible(p) {
        assert o.trace[0].Lookup?;
      } else {
        assert forall i :: 0 <= i < |o.trace| ==> !o.trace[i].Lookup?;
      }
    } else {
      assert o.trace == [Lookup(key)];
      assert o.trace[0].Lookup?;
    }
  }

  lemma {:induction false} FetchCountSplit(a: seq<Event>, b: seq<Event>)
    ensures FetchCount(a + b) == FetchCount(a) + FetchCount(b)
    decreases |a|
  {
    if |a| > 0 {
      FetchCountSplit(a[1..], b);
      assert (a + b)[1..] == a[1..] + b;
    } else {
      assert a + b == b;
    }
  }

  /** A credential shuts the cache out entirely: no lookup, no store, the
      cache is left as it was, and the response is the same whatever the
      cache holds, even an entry stored for the same URL. */
  lemma CredentialBypassesCache(env: Env, req: Inbound, target: string, c1: Cache, c2: Cache)
    requires HasAuth(req)
    ensures !LooksUp(Handle(env, req, target, c1).trace)
    ensures !Stores(Handle(env, req, target, c1).trace)
    ensures Handle(env, req, target, c1).cache == c1
    ensures Handle(env, req, target, c1).response == Handle(env, req, target, c2).response
    ensures Handle(env, req, target, c1).response.headers[XCache] == "MISS"
  {
    HandleEffects(env, req, target, c1);
  }

  /** `no-cache=1` or the bypass header forces a fresh fetch and a MISS even
      when an entry exists, and such a response is not stored either. */
  lemma BypassForcesFetch(env: Env, req: Inbound, target: string, cache: Cache)
    requires Evaluate(req).bypass
    ensures FetchCount(Handle(env, req, target, cache).trace) == 1
    ensures Handle(env, req, target, cache).response.headers[XCache] == "MISS"
    ensures !LooksUp(Handle(env, req, target, cache).trace)
    ensures !Stores(Handle(env, req, target, cache).trace)
    ensures Handle(env, req, target, cache).cache == cache
  {
    HandleEffects(env, req, target, cache);
  }

  /** A failed store is invisible to the caller: the response and the effects
      attempted are the same as with a store that succeeds. */
  lemma StoreFailureInvisible(upstream: UpstreamRequest -> Response, req: Inbound, target: string, cache: Cache)
    ensures Handle(Env(upstream, false), req, target, cache).response == Handle(Env(upstream, true), req, target, cache).response
    ensures Handle(Env(upstream, false), req, target, cache).trace == Handle(Env(upstream, true), req, target, cache).trace
    ensures Handle(Env(upstream, false), req, target, cache).cache == cache
  {
    HandleEffects(Env(upstream, false), req, target, cache);
  }

  /** A cacheable request that missed and was stored is answered from the
      cache the next time the same inbound URL is requested: same status,
      status text and headers apart from X-Cache, the first response's body
      for a GET and none for a HEAD, and no second origin fetch. */
  lemma RepeatIsHit(env: Env, first: Inbound, second: Inbound, t1: string, t2: string, cache: Cache)
    requires first.url == second.url
    requires ReadEligible(Evaluate(first)) && ReadEligible(Evaluate(second))
    requires KeyOf(first) !in cache
    requires IsOk(OriginAnswer(env, first, t1).status)
    requires env.storeSucceeds
    ensures var o1 := Handle(env, first, t1, cache);
      var o2 := Handle(env, second, t2, o1.cache);
      && FetchCount(o2.trace) == 0
      && o2.response.headers == o1.response.headers[XCache := "HIT"]
      && o2.response.status == o1.response.status
      && o2.response.statusText == o1.response.statusText
      && o2.response.body == (if second.verb == "HEAD" then None else o1.response.body)
  {
    var o1 := Handle(env, first, t1, cache);
    assert !IsHit(first, cache);
    HandleEffects(env, first, t1, cache);
    assert Stores(o1.trace);
    assert o1.cache == cache[KeyOf(first) := o1.response];
    assert IsHit(second, o1.cache);
  }

  /** The request handler behind either route: a refused protocol is
      answered with 400 before the caching core is reached. */
  function Serve(env: Env, route: Route, req: Inbound, cache: Cache): (o: Outcome)
    ensures o.trace == [] <==> !IsSupportedProtocol(route.protocol)
    ensures !IsSupportedProtocol(route.protocol) ==> o.response.status == 400 && o.cache == cache
    ensures IsSupportedProtocol(route.protocol) ==> FetchCount(o.trace) <= 1
  {
    match Resolve(route, req.path, req.url)
    case Rejected(r) => Outcome(r, cache, [])
    case Target(t) =>
      HandleEffects(env, req, t, cache);
      Handle(env, req, t, cache)
  }

  /** On a miss, the wildcard route hands the caching core the URL it built:
      the one origin fetch goes to `p://h`, then `/r` when r is non-empty,
      then the inbound query. */
  lemma ServeFetchesTarget(env: Env, p: string, h: string, r: string, req: Inbound, cache: Cache)
    requires IsSupportedProtocol(p) && '/' !in h
    requires req.path == "/" + p + "/" + h + "/" + r
    requires !IsHit(req, cache)
    ensures Fetch(UpstreamRequestOf(req, p + "://" + h + (if r == "" then "" else "/" + r) + QueryOf(req.url))) in Serve(env, WithRest(p, h), req, cache).trace
  {
    TargetOfPath(p, h, r, req.url);
    var t := TargetOf(WithRest(p, h), req.path, req.url);
    assert Serve(env, WithRest(p, h), req, cache) == Handle(env, req, t, cache);
    MissFetchesTarget(env, req, t, cache);
  }

  /** On a miss, `Handle` fetches the target it was given. */
  lemma MissFetchesTarget(env: Env, req: Inbound, t: string, cache: Cache)
    requires !IsHit(req, cache)
    ensures Fetch(UpstreamRequestOf(req, t)) in Handle(env, req, t, cache).trace
  {
    var looked := if ReadEligible(Evaluate(req)) then [Lookup(KeyOf(req))] else [];
    assert Handle(env, req, t, cache).trace[|looked|] == Fetch(UpstreamRequestOf(req, t));
  }

}

=== FILE: resolver.dfy ===
/** The two route handlers, for the wildcard path `/:protocol/:host/` followed
    by anything, and for the bare path `/:protocol/:host`.
    Each validates the protocol token and builds the upstream URL
    `protocol://host[/rest]` followed by the inbound query string. */
module Resolver {
  import opened Optional
  import opened Text
  import opened Http

  /** Which route matched, with its two path parameters. */
  datatype Route =
    | WithRest(protocol: string, host: string)
    | HostOnly(protocol: string, host: string)

  /** Either the handler answers at once, or it hands a target URL to the
      caching core. */
  datatype Resolution = Rejected(response: Response) | Target(url: string)

  const InvalidProtocolText := "Invalid protocol. Use http or https."

  /** The text response the handlers give for a protocol they refuse. */
  const BadProtocol := Response(400, "", map[ContentType := "text/plain; charset=UTF-8"], Some(InvalidProtocolText))

  predicate IsSupportedProtocol(p: string) {
    p == "http" || p == "https"
  }

  /** The query string of an inbound URL: from its first '?' to the end, or
      empty when it has none. */
  function QueryOf(url: string): (q: string)
    ensures q == "" <==> '?' !in url
    ensures |q| <= |url| && url == url[..|url| - |q|] + q
    ensures '?' !in url[..|url| - |q|]
    ensures q != "" ==> q[0] == '?'
  {
    match IndexOf(url, '?')
    case None => ""
    case Some(i) =>
      assert url == url[..i] + url[i..];
      url[i..]
  }

  /** `path.split('/').slice(3).join('/')`: the path pieces after the leading
      empty piece, the protocol and the host. It is a suffix of the path, and
      empty when the path has fewer than three slashes. */
  function RestOf(path: string): (r: string)
    ensures IsSuffix(r, path)
    ensures multiset(path)['/'] < 3 ==> r == ""
  {
    var parts := Split(path, '/');
    JoinDropIsSuffix(path, '/', if |parts| <= 3 then |parts| else 3);
    assert |parts| <= 3 ==> parts[|parts|..] == [];
    Join(if |parts| <= 3 then [] else parts[3..], '/')
  }

  /** The scheme-and-host part of every target URL. */
  function Origin(protocol: string, host: string): string
  {
    protocol + "://" + host
  }

  /** The URL the wildcard route builds: a "/" and the rest only when the rest
      is non-empty, then the query. */
  function TargetUrl(protocol: string, host: string, rest: string, query: string): (u: string)
    ensures NoQueryMark(protocol, host, rest) && IsQuery(query) ==> QueryOf(u) == query
  {
    TargetKeepsQuery(protocol, host, rest, query);
    Origin(protocol, host) + Between(rest) + query
  }

  /** What the wildcard route puts between the host and the query. */
  function Between(rest: string): string
  {
    if rest != "" then "/" + rest else ""
  }

  predicate NoQueryMark(protocol: string, host: string, rest: string) {
    '?' !in protocol && '?' !in host && '?' !in rest
  }

  /** A query string as `QueryOf` returns it: empty, or starting with '?'. */
  predicate IsQuery(q: string) {
    q == "" || q[0] == '?'
  }

  /** The route handler: reject an unsupported protocol, else build the
      target. */
  function Resolve(route: Route, path: string, url: string): (r: Resolution)
    ensures r.Rejected? <==> !IsSupportedProtocol(route.protocol)
    ensures r.Rejected? ==> r.response.status == 400 && r.response == BadProtocol
    ensures r.Target? ==> r.url == TargetOf(route, path, url)
  {
    if !IsSupportedProtocol(route.protocol) then Rejected(BadProtocol)
    else Target(TargetOf(route, path, url))
  }

  /** The target each route builds. The host-only route builds what the
      wildcard route would with an empty rest: no slash after the host. */
  function TargetOf(route: Route, path: string, url: string): (t: string)
    ensures NoQueryMark(route.protocol, route.host, if route.WithRest? then RestOf(path) else "") ==> QueryOf(t) == QueryOf(url)
  {
    match route
    case WithRest(protocol, host) => TargetUrl(protocol, host, RestOf(path), QueryOf(url))
    case HostOnly(protocol, host) => TargetUrl(protocol, host, "", QueryOf(url))
  }

  /** Every target starts with `protocol://host` and ends with the inbound
      query. */
  lemma TargetFramed(route: Route, path: string, url: string)
    ensures Framed(TargetOf(route, path, url), Origin(route.protocol, route.host), QueryOf(url))
  {
    var mid := if route.WithRest? then Between(RestOf(path)) else "";
    assert TargetOf(route, path, url) == Origin(route.protocol, route.host) + mid + QueryOf(url);
    FramedBy(Origin(route.protocol, route.host), mid, QueryOf(url));
  }

  predicate Framed(u: string, o: string, q: string) {
    o <= u && IsSuffix(q, u)
  }

  /** A concatenation starts with its first part and ends with its last. */
  lemma FramedBy(a: string, b: string, c: string)
    ensures Framed(a + b + c, a, c)
  {
  }

  /** On a path `/p/h/r` whose protocol and host pieces hold no '/', the rest
      is exactly `r`, slashes and a trailing slash included. */
  lemma RestOfPath(p: string, h: string, r: string)
    requires '/' !in p && '/' !in h
    ensures RestOf("/" + p + "/" + h + "/" + r) == r
  {
    var path := "/" + p + "/" + h + "/" + r;
    var tail := Split(r, '/');
    PathShape(p, h, r);
    SplitThreePieces("", p, h, r, '/');
    DropThree("", p, h, tail);
    JoinSplit(r, '/');
  }

  lemma PathShape(p: string, h: string, r: string)
    ensures "/" + p + "/" + h + "/" + r == "" + ['/'] + (p + ['/'] + (h + ['/'] + r))
  {
  }

  lemma DropThree<T>(a: T, b: T, c: T, tail: seq<T>)
    ensures ([a] + ([b] + ([c] + tail)))[3..] == tail
  {
  }

  /** Three separator-free pieces, each followed by a separator, split off
      in front of whatever follows. */
  lemma SplitThreePieces(a: string, b: string, c: string, r: string, sep: char)
    requires sep !in a && sep !in b && sep !in c
    ensures Split(a + [sep] + (b + [sep] + (c + [sep] + r)), sep) == [a] + ([b] + ([c] + Split(r, sep)))
  {
    var x := c + [sep] + r;
    SplitAfterPiece(c, sep, r);
    SplitAfterPiece(b, sep, x);
    SplitAfterPiece(a, sep, b + [sep] + x);
  }

  /** On a path `/p/h` with no further piece, the rest is empty. */
  lemma RestOfHostOnlyPath(p: string, h: string)
    requires '/' !in p && '/' !in h
    ensures RestOf("/" + p + "/" + h) == ""
  {
    var path := "/" + p + "/" + h;
    assert path == "" + ['/'] + (p + ['/'] + h);
    assert IndexOf(h, '/') == None;
    SplitAfterPiece(p, '/', h);
    SplitAfterPiece("", '/', p + ['/'] + h);
    assert |Split(path, '/')| == 3;
  }

  /** On a path `/p/h/r` the wildcard route builds `p://h`, then `/r` only when
      r is non-empty, then the inbound query. */
  lemma TargetOfPath(p: string, h: string, r: string, url: string)
    requires '/' !in p && '/' !in h
    ensures TargetOf(WithRest(p, h), "/" + p + "/" + h + "/" + r, url) == p + "://" + h + (if r == "" then "" else "/" + r) + QueryOf(url)
  {
    RestOfPath(p, h, r);
  }

  /** On a path `/p/h` both routes build `p://h` followed by the inbound
      query: no trailing slash. */
  lemma TargetOfHostOnlyPath(p: string, h: string, url: string)
    requires '/' !in p && '/' !in h
    ensures TargetOf(WithRest(p, h), "/" + p + "/" + h, url) == p + "://" + h + QueryOf(url)
    ensures TargetOf(HostOnly(p, h), "/" + p + "/" + h, url) == p + "://" + h + QueryOf(url)
  {
    RestOfHostOnlyPath(p, h);
    assert TargetUrl(p, h, "", QueryOf(url)) == p + "://" + h + QueryOf(url);
  }

  /** The two routes agree where both could apply: on `/p/h` the wildcard
      route builds the same target as the host-only route, with no trailing
      slash. */
  lemma RoutesAgree(p: string, h: string, url: string)
    requires '/' !in p && '/' !in h
    ensures Resolve(WithRest(p, h), "/" + p + "/" + h, url) == Resolve(HostOnly(p, h), "/" + p + "/" + h, url)
  {
    RestOfHostOnlyPath(p, h);
  }

  /** The query of a string made of a '?'-free part followed by a query is
      that query. */
  lemma QueryOfAppend(a: string, q: string)
    requires '?' !in a
    requires q == "" || q[0] == '?'
    ensures QueryOf(a + q) == q
  {
    var s := a + q;
    if q == "" {
      assert s == a;
    } else {
      assert s[|a|] == '?' && s[..|a|] == a;
      assert IndexOf(s, '?') == Some(|a|);
      assert s[|a|..] == q;
    }
  }

  /** The target URL carries its query unchanged: reading the query back
      gives it, provided the protocol, host and rest hold no '?'. */
  lemma TargetKeepsQuery(protocol: string, host: string, rest: string, query: string)
    ensures NoQueryMark(protocol, host, rest) && IsQuery(query) ==>
      QueryOf(Origin(protocol, host) + Between(rest) + query) == query
  {
    if NoQueryMark(protocol, host, rest) && IsQuery(query) {
      NotInConcat(protocol, "://", '?');
      NotInConcat(protocol + "://", host, '?');
      NotInConcat("/", rest, '?');
      NotInConcat(Origin(protocol, host), Between(rest), '?');
      QueryOfAppend(Origin(protocol, host) + Between(rest), query);
    }
  }

  /** Both routes hand the caching core a target that carries the inbound
      query unchanged, when the host parameter holds no '?' (the path name
      never does). */
  lemma ResolveKeepsQuery(route: Route, path: string, url: string)
    requires IsSupportedProtocol(route.protocol)
    requires '?' !in route.host && '?' !in path
    ensures Resolve(route, path, url).Target?
    ensures QueryOf(Resolve(route, path, url).url) == QueryOf(url)
  {
    var q := QueryOf(url);
    match route
    case WithRest(p, h) =>
      var rest := RestOf(path);
      RestHasNoQueryMark(path);
      assert NoQueryMark(p, h, rest) && IsQuery(q);
      assert Resolve(route, path, url) == Target(TargetUrl(p, h, rest, q));
    case HostOnly(p, h) =>
      assert NoQueryMark(p, h, "") && IsQuery(q);
      assert Resolve(route, path, url) == Target(TargetUrl(p, h, "", q));
  }

  lemma NotInConcat(a: string, b: string, c: char)
    requires c !in a && c !in b
    ensures c !in a + b
  {
  }

  /** The rest is made of characters of the path. */
  lemma RestHasNoQueryMark(path: string)
    requires '?' !in path
    ensures '?' !in RestOf(path)
  {
    var parts := Split(path, '/');
    JoinSplit(path, '/');
    JoinKeepsOut(parts, '/', '?');
    if |parts| > 3 {
      var kept := parts[3..];
      assert forall i :: 0 <= i < |kept| ==> kept[i] == parts[i + 3];
      JoinLacks(kept, '/', '?');
    }
  }

  /** A character absent from a join is absent from every piece. */
  lemma {:induction false} JoinKeepsOut(parts: seq<string>, sep: char, c: char)
    requires c !in Join(parts, sep)
    ensures forall i :: 0 <= i < |parts| ==> c !in parts[i]
    decreases |parts|
  {
    if |parts| > 1 {
      JoinKeepsOut(parts[1..], sep, c);
      forall i | 1 <= i < |parts|
        ensures c !in parts[i]
      {
        assert parts[i] == parts[1..][i - 1];
      }
    }
  }

  /** Joining pieces that lack `c` with a separator other than `c` gives a
      string that lacks `c`. */
  lemma {:induction false} JoinLacks(parts: seq<string>, sep: char, c: char)
    requires sep != c
    requires forall i :: 0 <= i < |parts| ==> c !in parts[i]
    ensures c !in Join(parts, sep)
    decreases |parts|
  {
    if |parts| > 1 {
      JoinLacks(parts[1..], sep, c);
      assert c !in parts[0];
    }
  }
}

=== FILE: text.dfy ===
/** String helpers with the semantics of the JavaScript built-ins the proxy
    relies on: `indexOf` of one character, `split` and `join` on one
    separator character, and decimal rendering of a non-negative integer
    (what a template literal does with an integral number). */
module Text {
  import opened Optional

  /** Position of the first occurrence of `c` in `s`; `None` stands for
      JavaScript's -1. */
  function IndexOf(s: string, c: char): (r: Option<nat>)
    ensures r.None? <==> c !in s
    ensures r.Some? ==> r.value < |s| && s[r.value] == c && c !in s[..r.value]
  {
    IndexFrom(s, c, 0)
  }

  function IndexFrom(s: string, c: char, k: nat): (r: Option<nat>)
    requires k <= |s|
    requires c !in s[..k]
    ensures r.None? <==> c !in s
    ensures r.Some? ==> k <= r.value < |s| && s[r.value] == c && c !in s[..r.value]
    decreases |s| - k
  {
    if k == |s| then (assert s[..k] == s; None)
    else if s[k] == c then Some(k)
    else (assert s[..k + 1] == s[..k] + [s[k]]; IndexFrom(s, c, k + 1))
  }

  /** `s.split(sep)`: the pieces between separators. There is always one
      piece more than there are separators, and no piece holds one. */
  function Split(s: string, sep: char): (parts: seq<string>)
    ensures |parts| == multiset(s)[sep] + 1
    ensures forall i :: 0 <= i < |parts| ==> sep !in parts[i]
    decreases |s|
  {
    match IndexOf(s, sep)
    case None => [s]
    case Some(i) =>
      assert s == s[..i] + [sep] + s[i + 1..];
      assert multiset(s) == multiset(s[..i]) + multiset([sep]) + multiset(s[i + 1..]);
      [s[..i]] + Split(s[i + 1..], sep)
  }

  /** `parts.join(sep)`; the empty array joins to the empty string. Joining
      separator-free pieces puts exactly one separator between neighbours. */
  function Join(parts: seq<string>, sep: char): (r: string)
    ensures |parts| == 0 ==> r == ""
    ensures |parts| >= 1 && (forall i :: 0 <= i < |parts| ==> sep !in parts[i]) ==> multiset(r)[sep] == |parts| - 1
  {
    if |parts| == 0 then ""
    else if |parts| == 1 then parts[0]
    else
      assert forall i :: 0 <= i < |parts| - 1 ==> parts[1..][i] == parts[i + 1];
      parts[0] + [sep] + Join(parts[1..], sep)
  }

  /** Joining the pieces of a split from the k-th on gives a suffix of the
      split string. */
  lemma {:induction false} JoinDropIsSuffix(s: string, sep: char, k: nat)
    requires k <= |Split(s, sep)|
    ensures IsSuffix(Join(Split(s, sep)[k..], sep), s)
    decreases |s|
  {
    var parts := Split(s, sep);
    if k == 0 {
      assert parts[k..] == parts;
      JoinSplit(s, sep);
    } else {
      match IndexOf(s, sep)
      case None =>
        assert parts[k..] == [];
      case Some(i) =>
        var rest := s[i + 1..];
        SplitStep(s, sep, i);
        DropCons(s[..i], Split(rest, sep), k);
        JoinDropIsSuffix(rest, sep, k - 1);
        SuffixOfTail(Join(parts[k..], sep), s, i + 1);
    }
  }

  /** One step of a split: the piece before the first separator, then the
      split of what follows it. */
  lemma SplitStep(s: string, sep: char, i: nat)
    requires IndexOf(s, sep) == Some(i)
    ensures Split(s, sep) == [s[..i]] + Split(s[i + 1..], sep)
  {
  }

  lemma DropCons<T>(x: T, xs: seq<T>, k: nat)
    requires 1 <= k <= |xs| + 1
    ensures ([x] + xs)[k..] == xs[k - 1..]
  {
  }

  predicate IsSuffix(j: string, s: string) {
    |j| <= |s| && s[|s| - |j|..] == j
  }

  /** A suffix of a tail of `s` is a suffix of `s`. */
  lemma SuffixOfTail(j: string, s: string, n: nat)
    requires n <= |s| && IsSuffix(j, s[n..])
    ensures IsSuffix(j, s)
  {
    assert s[n..][|s| - n - |j|..] == s[|s| - |j|..];
  }

  /** Splitting a string that starts with a separator-free piece followed by
      a separator peels that piece off. */
  lemma SplitAfterPiece(a: string, sep: char, b: string)
    requires sep !in a
    ensures Split(a + [sep] + b, sep) == [a] + Split(b, sep)
  {
    var s := a + [sep] + b;
    var i := |a|;
    assert s[i] == sep;
    assert s[..i] == a;
    assert sep !in s[..i];
    assert IndexOf(s, sep) == Some(i);
    assert s[i + 1..] == b;
  }

  /** Joining the pieces of a split gives the original string back. */
  lemma {:induction false} JoinSplit(s: string, sep: char)
    ensures Join(Split(s, sep), sep) == s
    decreases |s|
  {
    match IndexOf(s, sep)
    case None =>
    case Some(i) =>
      var head := s[..i];
      var rest := s[i + 1..];
      var tail := Split(rest, sep);
      JoinSplit(rest, sep);
      assert Split(s, sep) == [head] + tail;
      JoinCons(head, tail, sep);
      assert s == head + [sep] + rest;
  }

  /** Joining a piece in front of a non-empty array puts a separator
      between it and the join of the rest. */
  lemma JoinCons(head: string, tail: seq<string>, sep: char)
    requires |tail| >= 1
    ensures Join([head] + tail, sep) == head + [sep] + Join(tail, sep)
  {
    assert ([head] + tail)[1..] == tail;
  }

  /** Splitting the join of separator-free pieces gives the pieces back. An
      empty array is excluded: it joins to "", which splits to [""]. */
  lemma {:induction false} SplitJoin(parts: seq<string>, sep: char)
    requires |parts| >= 1
    requires forall i :: 0 <= i < |parts| ==> sep !in parts[i]
    ensures Split(Join(parts, sep), sep) == parts
    decreases |parts|
  {
    if |parts| == 1 {
      assert IndexOf(parts[0], sep) == None;
    } else {
      SplitJoin(parts[1..], sep);
      SplitAfterPiece(parts[0], sep, Join(parts[1..], sep));
      assert parts == [parts[0]] + parts[1..];
    }
  }

  predicate IsDigit(c: char) {
    '0' <= c <= '9'
  }

  predicate AllDigits(s: string) {
    forall i :: 0 <= i < |s| ==> IsDigit(s[i])
  }

  function DigitChar(d: nat): (c: char)
    requires d < 10
    ensures IsDigit(c) && c as int - '0' as int == d
  {
    ('0' as int + d) as char
  }

  /** Decimal rendering of a non-negative integer: digits only, and no
      leading zero except for "0" itself. */
  function DecimalOf(n: nat): (s: string)
    ensures |s| >= 1
    ensures AllDigits(s)
    ensures |s| > 1 ==> s[0] != '0'
  {
    if n < 10 then [DigitChar(n)] else DecimalOf(n / 10) + [DigitChar(n % 10)]
  }

  /** The number a string of decimal digits denotes. */
  function DigitsValue(s: string): nat
    requires AllDigits(s)
  {
    if |s| == 0 then 0
    else DigitsValue(s[..|s| - 1]) * 10 + (s[|s| - 1] as int - '0' as int)
  }

  /** Reads a non-empty run of decimal digits; anything else is `None`. */
  function ParseDecimal(s: string): (r: Option<nat>)
    ensures r.Some? <==> |s| >= 1 && AllDigits(s)
  {
    if |s| >= 1 && AllDigits(s) then Some(DigitsValue(s)) else None
  }

  /** Reading back a rendered number gives the number. */
  lemma {:induction false} DecimalRoundTrip(n: nat)
    ensures ParseDecimal(DecimalOf(n)) == Some(n)
    decreases n
  {
    var s := DecimalOf(n);
    if n >= 10 {
      DecimalRoundTrip(n / 10);
      assert s[..|s| - 1] == DecimalOf(n / 10);
      assert DigitsValue(s[..|s| - 1]) == n / 10;
      assert s[|s| - 1] == DigitChar(n % 10);
    } else {
      assert s[..|s| - 1] == "";
    }
    assert DigitsValue(s) == n;
  }

  /** The longest prefix of decimal digits, and what follows it. */
  function SpanDigits(s: string): (r: (string, string))
    ensures r.0 + r.1 == s
    ensures AllDigits(r.0)
    ensures r.1 == "" || !IsDigit(r.1[0])
  {
    if |s| == 0 || !IsDigit(s[0]) then ("", s)
    else
      var r := SpanDigits(s[1..]);
      assert s == [s[0]] + s[1..];
      ([s[0]] + r.0, r.1)
  }

  /** A digit run followed by a non-digit (or nothing) is split exactly there. */
  lemma {:induction false} SpanDigitsOf(d: string, t: string)
    requires AllDigits(d)
    requires t == "" || !IsDigit(t[0])
    ensures SpanDigits(d + t) == (d, t)
    decreases |d|
  {
    if |d| > 0 {
      SpanDigitsOf(d[1..], t);
      assert (d + t)[0] == d[0];
      assert (d + t)[1..] == d[1..] + t;
      assert [d[0]] + d[1..] == d;
    } else {
      assert d + t == t;
    }
  }
}
